=== FILE: README.md ===
# Account service of the user service, modelled in Dafny

This project models the account logic of the user service (`UserService` in
`user-service/services/user/user.go`). It covers Login, the username and email
existence checks, Register, Update, and the two read projections
`GetUserLogin` and `GetUserByUUID`. It also proves properties about them:
the order in which errors are reported, which fields reach a response, role
lower-casing, token expiry arithmetic, and username/email uniqueness.

Layout, one module per component:

- `errors.dfy`: `Wrappers` (Option) and `Errors`. `Errors` holds the service's error
  constants, the store's database error and the bcrypt failures. It also holds the
  `UserErrors` list as written and a completed version of it.
- `text.dfy`: `Text`, ASCII lower-casing used for the role claim.
- `bcrypt.dfy`: `Bcrypt`, the password-hashing contract. A hash is prefix, salt and digest.
  The digest stands for the password's expanded key: the password and a NUL byte, repeated
  cyclically and cut at 72 bytes, which is all the library's key schedule reads. So the compare
  cannot tell apart two passwords that share their first 72 bytes. The random source is a
  parameter (`Entropy`).
- `domain.dfy`: `Dto`, the request and response records, and `Roles`, the seeded roles.
- `jwt.dfy`: `Jwt`, the claims, a symbolic HS256 signature, and the expiry arithmetic.
  The expiry includes Go's 64-bit `time.Duration` wrap-around.
- `store.dfy`: `Store`, the users table as the service sees it. It has value functions
  (`Lookup`, `InsertRow`, `UpdateRow`) and the `UserRepository` class. The class's
  `Register` and `Update` methods change its rows and are proved equal to those functions.
- `services.dfy`: `Services`. Read-only operations are functions of a store snapshot.
  `UserService.Register` and `UserService.Update` are methods that modify the repository.
  Each is proved equal to `RegisterOutcome` / `UpdateOutcome` of the old snapshot.
- `properties.dfy`: `AccountProperties`, lemmas about those functions.
- `scenarios.dfy`: `Scenarios`, concrete runs and the discrepancies listed under Findings.

Modelling decisions:

- **Repository code.** The repositories are not part of this model; only their call sites
  are. The store contract is an assumption, stated in `store.dfy`:
  - rows are kept in primary-key order, and a lookup returns the first match;
  - a lookup with no match fails with `UserNotFound`. A lookup that finds a row returns it with
    its role loaded, which is why Login's claims carry the role code;
  - `failing` names the store calls that fail with `SQLError` during one operation. There is one
    tag per call site. Update's second username and email lookups (user.go:174-177, 186-189) have
    their own tags, so they can fail after the first lookup succeeded;
  - `id` stands for the uuid the repository draws for a new user;
  - an insert fails on a uuid already in use or an unknown role id. Otherwise it returns the new
    row with its role loaded, which is why Register can answer with the role code;
  - an update overwrites name, username, password, email and phone of the row with
    that uuid and keeps its uuid and role.

  The table does not enforce unique usernames or emails. Only the service's checks
  keep them unique.
- **Roles.** The identifiers `Admin = 1` and `Customer = 2` follow the seeding order in
  `role_seeder.go`. The constants package that defines them is not part of this model.
- **Strings.** Dafny strings stand for Go byte strings, one character per byte. The 72-byte
  cut-off of bcrypt and the ASCII lower-casing count bytes, not Unicode characters.
- **Clock and configuration.** `time.Now()` is a parameter counted in Unix nanoseconds.
  `config.Config` is a parameter, `Config(jwtExpirationTime, jwtSecretKey)`.
- **Tokens.** The token is symbolic: `Token(alg, claims, HmacSha256(HmacKey(key), claims))`, where `HmacKey` is
  the NUL-padded key block of HMAC (section 2 of RFC 2104).
  `VerifySignature` is the verifier's side. It is not code of this service; it is stated
  only to give `Sign` a partner.

Where the code departs from what its names and messages evidently intend, the model follows the code:

- Register hashes the password before any check, so a hashing failure is reported first.
- Login returns bcrypt's mismatch error, not `ErrPasswordIncorrect`.
- Register answers with the role code as stored (`"CUSTOMER"`), but Login's claims carry it
  lower-cased (`"customer"`).
- Update and `GetUserByUUID` answer with an empty role. So Register's answer and a later
  `GetUserByUUID` agree on every field except the role (`RegisterThenGetUserByUUID`).
- The existence checks read any lookup error as "free". If a store lookup fails, Register
  can therefore insert a duplicate username (`LookupFailureAdmitsDuplicate`).

## Model

| member | source | states |
|---|---|---|
| `Errors.UserErrorsOmitsEmailExist` | user-service/constants/error/user.go:13-18 | an error is in `UserErrors` exactly when it is a user-domain error other than `EmailExist` |
| `Errors.UserErrorsCompleteListsDomain` | user-service/constants/error/user.go:5-18 | the completed list holds exactly the five user-domain errors |
| `Text.LowerChar` | user-service/services/user/user.go:61 | A-Z move up by 32 to a-z, every other character is kept, and the result is never an upper-case ASCII letter |
| `Text.ToLower` | user-service/services/user/user.go:61 | the result has the input's length and each character is the lower-cased input character |
| `Text.ToLowerIsLower` | user-service/services/user/user.go:61 | lower-casing leaves no upper-case ASCII letter and is idempotent |
| `Text.RoleCodesLowerCase` | user-service/database/seeders/role_seeder.go:11-20 | the seeded codes "ADMIN" and "CUSTOMER" lower-case to "admin" and "customer" |
| `Roles.RoleById` | user-service/database/seeders/role_seeder.go:11-20 | exactly the identifiers of the two seeded roles resolve, to the seeded role with that identifier |
| `Bcrypt.ExpandedKey` | user-service/services/user/user.go:48 | the 72 key bytes the library reads: the password's own bytes up to the 72nd, then a NUL byte when the password is shorter |
| `Bcrypt.ExpandedKeyIgnoresTail` | user-service/services/user/user.go:48 | bytes past the 72nd do not change the key |
| `Bcrypt.ExpandedKeyInjective` | user-service/services/user/user.go:48 | passwords of at most 72 bytes without NUL bytes have the same key exactly when they are equal |
| `Bcrypt.GenerateFromPassword` | user-service/services/user/user.go:112-115 | hashing fails exactly when no salt can be drawn; the hash has the version prefix and differs from any password of at most 72 bytes |
| `Bcrypt.CompareHashAndPassword` | user-service/services/user/user.go:48-52 | a too-short hash is rejected, a pass means the hash carries that password's expanded key, and a failure is a library error |
| `Bcrypt.HashThenCompare` | user-service/services/user/user.go:48-51 | a hash accepts exactly the passwords whose expanded key is that of the password it was made from, and any other gets the mismatch error |
| `Jwt.Sign` | user-service/services/user/user.go:71-72 | the token is HS256 and carries exactly the given claims |
| `Jwt.VerifySignature` | user-service/services/user/user.go:71-72 | a token is accepted only with its own claims |
| `Jwt.HmacKey` | user-service/services/user/user.go:72 | a key of at most 64 bytes becomes a 64-byte block that starts with the key and is NUL-padded |
| `Jwt.HmacKeyPadding` | user-service/services/user/user.go:72 | a key shorter than 64 bytes and the same key with one more NUL byte give the same block |
| `Jwt.SignThenVerify` | user-service/services/user/user.go:64-72 | verifying gives the claims back exactly under keys with the signing key's HMAC block, the signing key and the key with an added NUL byte among them; every other key is rejected |
| `Jwt.Wrap64` | user-service/services/user/user.go:54 | the product is reduced to 64-bit two's complement and is unchanged when it already fits |
| `Jwt.ExpirationTime` | user-service/services/user/user.go:54 | the expiry is the whole Unix second that contains now plus the 64-bit-wrapped lifetime; `ExpirationTimeInRange` and `ExpirationTimeWrapsBeyondRange` give its value |
| `Jwt.ExpirationTimeInRange` | user-service/services/user/user.go:54 | for a lifetime of at most 153722867 minutes either way, the expiry is the current second plus 60 seconds per minute |
| `Jwt.ExpirationTimeWrapsBeyondRange` | user-service/services/user/user.go:54 | for every clock reading, one minute more wraps the duration negative, and the expiry lies before the current second |
| `Store.FirstMatch` | user-service/services/user/user.go:42 | returns no index exactly when no row matches, otherwise the lowest matching index |
| `Store.Lookup` | user-service/services/user/user.go:42-46 | a failing call gives `SQLError`; otherwise a lookup succeeds exactly when a row matches, with a matching row, and otherwise fails with `UserNotFound`. `FindByUsername` (user.go:42, 86), `FindByEmail` (user.go:99), `FindByUUID` (user.go:167, 249), `RecheckUsername` (user.go:174) and `RecheckEmail` (user.go:186) are this lookup at a fixed call site and key |
| `Store.InsertRow` | user-service/services/user/user.go:129-141 | succeeds exactly when the call is healthy, the uuid is new and the role exists; then it appends one row with the given fields, and on failure nothing changes; uuids stay distinct |
| `Store.UpdateRow` | user-service/services/user/user.go:207-217 | succeeds exactly when the call is healthy and the uuid exists; then only that row changes, keeping its uuid and role; uuids stay distinct |
| `Store.UserRepository.Register` | user-service/services/user/user.go:129-141 | the new table and the answer are those of `InsertRow` on the old table, and the uuid invariant holds |
| `Store.UserRepository.Update` | user-service/services/user/user.go:207-217 | the new table and the answer are those of `UpdateRow` on the old table, and the uuid invariant holds |
| `Services.LoginView` | user-service/services/user/user.go:55-62 | copies uuid, name, username, phone and email from the row; the role is its code lower-cased |
| `Services.Login` | user-service/services/user/user.go:41-83 | on success the claims' user is the response's user, for the requested username, with expiry now + TTL, and the token verifies under the key; a failure is not-found, a database error or a bcrypt error |
| `Services.IsUsenameExist` | user-service/services/user/user.go:85-96 | true exactly when the username lookup is healthy and some row has that username |
| `Services.IsEmailExist` | user-service/services/user/user.go:98-109 | true exactly when the email lookup is healthy and some row has that email |
| `Services.NewCustomer` | user-service/services/user/user.go:129-137 | the store receives the request's fields, the hash instead of the password, and always the Customer role |
| `Services.RegisterView` | user-service/services/user/user.go:143-152 | Register's answer copies the inserted row with its role code not lower-cased |
| `Services.RegisterOutcome` | user-service/services/user/user.go:111-155 | a failed Register leaves the table unchanged; a successful one appends exactly one row and keeps the old rows |
| `Services.UpdatedFields` | user-service/services/user/user.go:207-213 | the store receives the requested fields and the hash instead of the password |
| `Services.UpdateView` | user-service/services/user/user.go:219-225 | the uuid comes from the row loaded first and the other fields from the store's result; the role is empty |
| `Services.UpdateOutcome` | user-service/services/user/user.go:157-228 | a failed Update leaves the table unchanged; a successful one keeps the row count and answers with the requested uuid and an empty role |
| `Services.GetUserLogin` | user-service/services/user/user.go:230-246 | copies the identity from the request context, except that the phone number is the username |
| `Services.StoredView` | user-service/services/user/user.go:255-261 | copies uuid, name, username, phone and email of the stored row and leaves the role empty |
| `Services.GetUserByUUID` | user-service/services/user/user.go:248-264 | succeeds exactly when the uuid lookup is healthy and the uuid exists, answering the public fields of a stored row with that uuid and no role; otherwise not-found or a database error |
| `Services.GetUserLoginIntended` | user-service/services/user/user.go:236-243 | the corrected projection returns the identity unchanged |
| `Services.LoginReportingIncorrectPassword` | user-service/services/user/user.go:48-52 | the corrected Login answers `PasswordIncorrect` exactly when Login reports a mismatch; every other answer is Login's |
| `Services.UserService.Register` | user-service/services/user/user.go:111-155 | the new table and the answer are those of `RegisterOutcome` on the old table |
| `Services.UserService.Update` | user-service/services/user/user.go:157-228 | the new table and the answer are those of `UpdateOutcome` on the old table |
| `AccountProperties.LoginOutcome` | user-service/services/user/user.go:41-62 | Login returns the lookup's or the library's error unchanged; it succeeds exactly when the user is found and the password matches; the response is the first such row's projection with the role lower-cased |
| `AccountProperties.LoginExpiry` | user-service/services/user/user.go:54-69 | with a lifetime whose duration fits in 64 bits, `ExpiresAt` = now + 60·JwtExpirationTime seconds, and the token is live until then |
| `AccountProperties.RegisterReportsInOrder` | user-service/services/user/user.go:111-127 | hashing error, then `UsernameExist`, then `EmailExist`, then `PasswordDoesNotMatch`, each with no row inserted; the request's role id never matters |
| `AccountProperties.RegisterSucceeds` | user-service/services/user/user.go:129-154 | Register succeeds exactly when every check passes and the store accepts; it appends one Customer row holding a hash that matches the password (and differs from it when it is at most 72 bytes), and answers with that row and the role "CUSTOMER" |
| `AccountProperties.RegisterKeepsUniqueLogins` | user-service/services/user/user.go:117-137 | with lookups that fail only on not-found, usernames and emails stay unique |
| `AccountProperties.RegisterTwiceRejects` | user-service/services/user/user.go:117-123 | after a successful Register, a second one with the same username fails with `UsernameExist`, and one with the same email fails with `UsernameExist` or `EmailExist` |
| `AccountProperties.LookupFailureAdmitsDuplicate` | user-service/services/user/user.go:85-96 | when the username lookup fails, Register inserts a duplicate username into a table that was unique |
| `AccountProperties.UpdateReportsInOrder` | user-service/services/user/user.go:167-198 | unknown uuid, then a changed and taken username, then a changed and taken email, then the password mismatch, each with the table unchanged; a conflict whose second lookup fails reports that database error instead; keeping one's own username never gives `UsernameExist`, and keeping one's own email never gives `EmailExist`, whatever the other field is |
| `AccountProperties.UpdateUnknownUuid` | user-service/services/user/user.go:167-170 | Update with an unknown uuid fails with `UserNotFound` and changes nothing |
| `AccountProperties.UpdateChangesOnlyTarget` | user-service/services/user/user.go:196-227 | a successful Update has matching passwords and rewrites only the first row with that uuid, which under distinct uuids is the only one; the row keeps uuid and role and takes the requested fields and the new hash; the answer has the uuid, the requested fields and no role |
| `AccountProperties.UpdateKeepsUniqueLogins` | user-service/services/user/user.go:172-213 | with lookups that fail only on not-found, usernames and emails stay unique |
| `AccountProperties.RegisterThenLogin` | user-service/services/user/user.go:48-62 | right after Register, Login succeeds exactly for passwords with the registered password's expanded key, answers the new row with role "customer", and otherwise reports the mismatch, which the corrected Login reports as `PasswordIncorrect` |
| `AccountProperties.RegisterThenLoginExactly` | user-service/services/user/user.go:48-52 | for passwords of at most 72 bytes without NUL bytes, the new user logs in with exactly the registered password |
| `AccountProperties.RegisterKeepsOtherLogins` | user-service/services/user/user.go:129-141 | Register leaves the lookup and the Login of every other username unchanged |
| `AccountProperties.RegisterThenGetUserByUUID` | user-service/services/user/user.go:248-263 | `GetUserByUUID` of the new uuid returns Register's answer with the role emptied, and that role was "CUSTOMER" |
| `AccountProperties.GetUserLoginKeepsIdentity` | user-service/services/user/user.go:236-243 | the projection returns the identity unchanged exactly when its phone number equals its username |
| `Scenarios.ArvelRegistersAndLogsIn` | user-service/services/user/user.go:41-83 | "arvel" registers as a Customer although the request asks for Admin; "arvel123" logs in with role "customer"; "wrong" gets bcrypt's mismatch error, which the corrected Login reports as `PasswordIncorrect` |
| `Scenarios.LongPasswordTailIgnored` | user-service/services/user/user.go:48-52 | a user registered with 72 "a"s also logs in with 72 "a"s followed by "b" |
| `Scenarios.UpdateToTakenUsername` | user-service/services/user/user.go:172-182 | with users "a" and "b", renaming b to "a" fails with `UsernameExist` and changes nothing |
| `Scenarios.GetUserLoginDropsPhoneNumber` | user-service/services/user/user.go:240 | for a concrete identity the phone number is replaced by the username; the corrected projection keeps it |
| `Scenarios.PasswordIncorrectNeverReturned` | user-service/services/user/user.go:48-52 | for every input, Login, Register, Update and `GetUserByUUID` never answer `PasswordIncorrect` |
| `Scenarios.EmailConflictIsNotListed` | user-service/services/user/user.go:121-123 | a Register with a taken email returns `EmailExist`, which the list as written lacks and the completed list holds |

## Left out

- Login's return after a signing failure (user.go:73-75). Signing is total in the model, because HS256 with a byte-string key has no failure case.
- JWT compact serialisation (base64url, JSON) and HMAC-SHA256 itself. The token is a symbolic term of claims and key block.
- Jwt.HmacKey: HMAC replaces a key longer than 64 bytes by its SHA-256 digest. The model keeps such a key as it is, so `SignThenVerify` treats it as distinct from the 32-byte key equal to its digest, which HMAC treats as the same key. SHA-256 is not modelled.
- bcrypt internals: cost handling, the Blowfish cipher, constant-time comparison, and the one-wayness of the digest. The model's digest is the expanded key itself.
- Bcrypt.GenerateFromPassword: newer library versions refuse passwords longer than 72 bytes, older ones hash their first 72 bytes. The library version is not part of this model, and the model follows the older behaviour.
- `strings.ToLower` on non-ASCII characters. Role codes are ASCII, so only A-Z are mapped.
- `time.Time` saturation on overflow of its seconds, and the monotonic clock reading. The clock is a Unix-nanosecond integer.
- Logging (logrus) and the request `context`, including its cancellation.
- GetUserLogin's type assertion, which panics when no identity is in the context. The identity is a parameter.
- The repositories and their gorm queries. The store contract is an assumption (see above). In particular, a gorm struct update that skips zero-valued fields would not overwrite an empty name, phone or email; the model overwrites all of them.
- The plaintext `ConfirmPassword` that Register passes to the repository (user.go:133). The model's insert record does not carry it, assuming the repository drops it.
- The race between an existence check and the write under concurrent requests. Concurrency is out of scope.
- Routes, controllers, registries, seeders, header constants, and the general errors other than the database error. These are transport, wiring and persistence plumbing.
- `Services.UserService.Register`, `Services.UserService.Update`, `Store.UserRepository.Register`, `Store.UserRepository.Update`: their contracts tie the new state to a function of the old one. The properties are proved about those functions, not restated on the methods.

## Findings

| source | as written | input that shows it | evidently intended | confidence | as-written member | corrected member |
|---|---|---|---|---|---|---|
| user-service/services/user/user.go:240 | `GetUserLogin` sets PhoneNumber from the identity's Username | identity with username "arvel" and phone "08273648237" is answered with phone "arvel" | PhoneNumber copied from the identity's PhoneNumber | high; not executed | `Scenarios.GetUserLoginDropsPhoneNumber` | `Services.GetUserLoginIntended` |
| user-service/services/user/user.go:48-51 | a wrong password returns bcrypt's mismatch error; `ErrPasswordIncorrect` is declared but never returned | user "arvel" registered with "arvel123", Login with "wrong" | Login answers `ErrPasswordIncorrect` | medium; not executed | `Scenarios.PasswordIncorrectNeverReturned` | `Services.LoginReportingIncorrectPassword` |
| user-service/constants/error/user.go:13-18 | `UserErrors` lists four of the five user errors and omits `ErrEmailExist` | Register with an email another user holds returns `ErrEmailExist` | the list holds all five user errors | medium; not executed | `Scenarios.EmailConflictIsNotListed` | `Errors.UserErrorsCompleteListsDomain` |

=== FILE: bcrypt.dfy ===
/** The password-hashing contract the service relies on.

    A hash is the version-and-cost prefix, a 22-character salt drawn from the
    random source, and a digest of the password's expanded key. The digest here
    is that key itself: the model keeps the format, the salt and what the
    library's compare actually distinguishes, not its one-wayness, which no
    model of this kind can state. Characters stand for bytes. */
module Bcrypt {
  import opened Errors

  const DefaultCost := 10
  /** Version 2a at DefaultCost. */
  const Prefix: string := "$2a$10$"
  const SaltLength := 22
  /** The length of prefix and salt together: a stored value shorter than this
      cannot be a hash in the model's format. */
  const MinHashSize := 29
  /** The number of key bytes the key schedule reads: 18 four-byte words. */
  const MaxKeyLength := 72

  type Salt = s: string | |s| == SaltLength witness "......................"

  /** What the random source yields when a salt is drawn. */
  datatype Entropy = Drawn(salt: Salt) | Unavailable

  /** The key bytes the key schedule consumes: the password followed by a NUL
      byte, repeated cyclically and cut at 72 bytes. Two passwords with the
      same expanded key are indistinguishable to the library. */
  function ExpandedKey(password: string): (k: string)
    ensures |k| == MaxKeyLength
    ensures forall i :: 0 <= i < |password| && i < MaxKeyLength ==> k[i] == password[i]
    ensures |password| < MaxKeyLength ==> k[|password|] == '\0'
  {
    seq(MaxKeyLength, i requires 0 <= i < MaxKeyLength =>
      if i < |password| then password[i]
      else if i == |password| then '\0'
      else (password + ['\0'])[i % (|password| + 1)])
  }

  predicate NoNul(s: string) {
    forall i :: 0 <= i < |s| ==> s[i] != '\0'
  }

  /** Bytes past the 72nd never reach the key. */
  lemma ExpandedKeyIgnoresTail(password: string, tail: string)
    requires |password| >= MaxKeyLength
    ensures ExpandedKey(password + tail) == ExpandedKey(password)
  {
    var k, k' := ExpandedKey(password + tail), ExpandedKey(password);
    forall i | 0 <= i < MaxKeyLength
      ensures k[i] == k'[i]
    {
      assert (password + tail)[i] == password[i];
    }
  }

  /** Up to 72 bytes and without NUL bytes, distinct passwords have distinct keys. */
  lemma {:induction false} ExpandedKeyInjective(a: string, b: string)
    requires |a| <= MaxKeyLength && |b| <= MaxKeyLength && NoNul(a) && NoNul(b)
    ensures ExpandedKey(a) == ExpandedKey(b) <==> a == b
  {
    var ka, kb := ExpandedKey(a), ExpandedKey(b);
    if ka == kb {
      var m := if |a| < |b| then |a| else |b|;
      if m < MaxKeyLength {
        assert ka[m] == kb[m];
      }
      assert |a| == |b|;
      forall i | 0 <= i < |a|
        ensures a[i] == b[i]
      {
        assert ka[i] == a[i] && kb[i] == b[i];
      }
    }
  }

  /** Hashes a password with a fresh salt; fails only when no salt can be drawn. */
  function GenerateFromPassword(password: string, entropy: Entropy): (r: Result<string>)
    ensures r.Failure? <==> entropy.Unavailable?
    ensures r.Failure? ==> r.error == Bcrypt(RandomSourceFailure)
    ensures r.Success? ==> |r.value| == MinHashSize + MaxKeyLength && r.value[..|Prefix|] == Prefix
    ensures r.Success? && |password| <= MaxKeyLength ==> r.value != password
  {
    match entropy
    case Unavailable => Failure(Bcrypt(RandomSourceFailure))
    case Drawn(salt) => Success(Prefix + salt + ExpandedKey(password))
  }

  /** Checks a password against a stored hash: Pass on a match, the library's error otherwise. */
  function CompareHashAndPassword(hashed: string, password: string): (r: Outcome)
    ensures |hashed| < MinHashSize ==> r == Fail(Bcrypt(HashTooShort))
    ensures r == Pass ==> hashed[..|Prefix|] == Prefix && hashed[MinHashSize..] == ExpandedKey(password)
    ensures r.Fail? ==> r.error.Bcrypt? && r.error.reason != RandomSourceFailure
  {
    if |hashed| < MinHashSize then Fail(Bcrypt(HashTooShort))
    else if hashed[..|Prefix|] != Prefix then Fail(Bcrypt(MalformedHash))
    else if hashed != Prefix + hashed[|Prefix|..MinHashSize] + ExpandedKey(password) then Fail(Bcrypt(MismatchedHashAndPassword))
    else Pass
  }

  /** A hash accepts exactly the passwords whose expanded key is that of the
      password it was made from; any other password is a mismatch. */
  lemma {:induction false} HashThenCompare(password: string, attempt: string, salt: Salt)
    ensures var h := GenerateFromPassword(password, Drawn(salt)).value;
      CompareHashAndPassword(h, attempt)
        == if ExpandedKey(attempt) == ExpandedKey(password) then Pass else Fail(Bcrypt(MismatchedHashAndPassword))
  {
    var h := Prefix + salt + ExpandedKey(password);
    assert h[..|Prefix|] == Prefix;
    assert h[|Prefix|..MinHashSize] == salt;
    if ExpandedKey(attempt) != ExpandedKey(password) {
      var other := Prefix + salt + ExpandedKey(attempt);
      assert other[MinHashSize..] == ExpandedKey(attempt);
      assert h[MinHashSize..] == ExpandedKey(password);
      assert h != other;
    }
  }
}

=== FILE: domain.dfy ===
/** The request and response records the account service exchanges with its callers. */
module Dto {
  type Uuid = string

  /** The public projection of a user; it has no place for the password hash. */
  datatype UserResponse = UserResponse(
    uuid: Uuid,
    name: string,
    username: string,
    phoneNumber: string,
    email: string,
    role: string)

  datatype LoginRequest = LoginRequest(username: string, password: string)

  /** roleId is whatever the caller sent; Register never passes it on. */
  datatype RegisterRequest = RegisterRequest(
    name: string,
    username: string,
    password: string,
    confirmPassword: string,
    email: string,
    phoneNumber: string,
    roleId: nat)

  datatype RegisterResponse = RegisterResponse(user: UserResponse)

  datatype UpdateRequest = UpdateRequest(
    name: string,
    username: string,
    password: string,
    confirmPassword: string,
    email: string,
    phoneNumber: string)
}

/** The seeded roles. */
module Roles {
  import opened Wrappers

  datatype Role = Role(id: nat, code: string, name: string)

  /** Role identifiers in seeding order. */
  const Admin: nat := 1
  const Customer: nat := 2

  const Seeded: seq<Role> := [Role(Admin, "ADMIN", "Administrator"), Role(Customer, "CUSTOMER", "Customer")]

  /** The seeded role with the given identifier, if any. */
  function RoleById(id: nat): (r: Option<Role>)
    ensures r.Some? <==> id == Admin || id == Customer
    ensures r.Some? ==> r.value in Seeded && r.value.id == id
  {
    if id == Admin then Some(Seeded[0])
    else if id == Customer then Some(Seeded[1])
    else None
  }
}

=== FILE: errors.dfy ===
/** Option, and the error values the account service returns or passes through. */
module Wrappers {
  datatype Option<+T> = None | Some(value: T)
}

module Errors {
  /** Every error value that can leave the account service.
      The first five are the service's own error constants; SQLError is what the
      repositories report for any database failure; Bcrypt wraps the failures of
      the password-hashing library, which Login and Register pass on unchanged. */
  datatype Error =
    | UserNotFound
    | PasswordIncorrect
    | UsernameExist
    | EmailExist
    | PasswordDoesNotMatch
    | SQLError
    | Bcrypt(reason: BcryptFailure)

  /** Failures of the password-hashing library. */
  datatype BcryptFailure =
    | MismatchedHashAndPassword  // the hash is well formed but is not the hash of the password
    | HashTooShort               // the stored hash is shorter than any hash the library produces
    | MalformedHash              // bad version or cost prefix
    | RandomSourceFailure        // the salt could not be drawn

  /** A value or the error that prevented it. */
  datatype Result<+T> = Success(value: T) | Failure(error: Error)

  /** The outcome of a check that yields no value. */
  datatype Outcome = Pass | Fail(error: Error)

  /** The five errors the user domain declares. */
  predicate IsUserDomainError(e: Error) {
    e.UserNotFound? || e.PasswordIncorrect? || e.UsernameExist? || e.EmailExist? || e.PasswordDoesNotMatch?
  }

  /** The list of user errors as the source writes it: ErrEmailExist is missing. */
  const UserErrors: seq<Error> := [UserNotFound, PasswordIncorrect, UsernameExist, PasswordDoesNotMatch]

  /** The same list with ErrEmailExist in its place. */
  const UserErrorsComplete: seq<Error> := [UserNotFound, PasswordIncorrect, UsernameExist, EmailExist, PasswordDoesNotMatch]

  /** The list as written leaves out exactly one user-domain error: EmailExist. */
  lemma UserErrorsOmitsEmailExist(e: Error)
    ensures e in UserErrors <==> IsUserDomainError(e) && e != EmailExist
  {
    if IsUserDomainError(e) && e != EmailExist {
      match e
      case UserNotFound => assert UserErrors[0] == e;
      case PasswordIncorrect => assert UserErrors[1] == e;
      case UsernameExist => assert UserErrors[2] == e;
      case PasswordDoesNotMatch => assert UserErrors[3] == e;
    }
  }

  /** The completed list holds exactly the user-domain errors. */
  lemma UserErrorsCompleteListsDomain(e: Error)
    ensures e in UserErrorsComplete <==> IsUserDomainError(e)
  {
    if IsUserDomainError(e) {
      match e
      case UserNotFound => assert UserErrorsComplete[0] == e;
      case PasswordIncorrect => assert UserErrorsComplete[1] == e;
      case UsernameExist => assert UserErrorsComplete[2] == e;
      case EmailExist => assert UserErrorsComplete[3] == e;
      case PasswordDoesNotMatch => assert UserErrorsComplete[4] == e;
    }
  }
}

=== FILE: jwt.dfy ===
/** Session-token claims, their expiry and their HS256 signature.

    The signature is symbolic: a token carries the claims and a MAC term that
    records the HMAC key block and the claims it was computed over, so that a
    verifier accepts exactly the tokens signed under a key with the same block. */
module Jwt {
  import opened Wrappers
  import opened Dto

  /** The user projection and the registered "exp" claim, in Unix seconds. */
  datatype Claims = Claims(user: UserResponse, expiresAt: int)

  datatype Mac = HmacSha256(keyBlock: string, payload: Claims)

  datatype Token = Token(alg: string, claims: Claims, signature: Mac)

  const HS256: string := "HS256"

  /** The block size of SHA-256, in bytes. */
  const BlockSize := 64

  /** The key block HMAC works with (section 2 of RFC 2104): a key of at most
      64 bytes padded with NUL bytes to 64. A longer key is first replaced by
      its SHA-256 digest; the model keeps it as it is. */
  function HmacKey(key: string): (b: string)
    ensures |key| <= BlockSize ==> |b| == BlockSize && b[..|key|] == key
    ensures |key| <= BlockSize ==> forall i :: |key| <= i < BlockSize ==> b[i] == '\0'
  {
    if |key| <= BlockSize then key + seq(BlockSize - |key|, _ => '\0') else key
  }

  /** A key shorter than 64 bytes and the same key with one more NUL byte give
      the same block, so HMAC treats them as one key. */
  lemma HmacKeyPadding(key: string)
    requires |key| < BlockSize
    ensures HmacKey(key + "\0") == HmacKey(key)
  {
    var a, b := HmacKey(key + "\0"), HmacKey(key);
    assert |a| == |b| == BlockSize;
    forall i | 0 <= i < BlockSize
      ensures a[i] == b[i]
    {
      if i < |key| {
        assert a[..|key| + 1][i] == (key + "\0")[i];
        assert b[..|key|][i] == key[i];
      }
    }
  }

  /** Signs the claims with HS256. With a byte-string key this has no failure case. */
  function Sign(claims: Claims, key: string): (t: Token)
    ensures t.alg == HS256 && t.claims == claims
  {
    Token(HS256, claims, HmacSha256(HmacKey(key), claims))
  }

  /** The claims of a token whose HS256 signature checks out under the key. */
  function VerifySignature(t: Token, key: string): (r: Option<Claims>)
    ensures r.Some? ==> r.value == t.claims
  {
    if t.alg == HS256 && t.signature == HmacSha256(HmacKey(key), t.claims) then Some(t.claims) else None
  }

  /** A token is live strictly before its expiry second. */
  predicate Live(c: Claims, nowSeconds: int) {
    nowSeconds < c.expiresAt
  }

  /** Verifying under any key with the signing key's block gives the claims
      back, and any key with another block is rejected. */
  lemma SignThenVerify(c: Claims, key: string, other: string)
    ensures VerifySignature(Sign(c, key), other) == if HmacKey(other) == HmacKey(key) then Some(c) else None
    ensures VerifySignature(Sign(c, key), key) == Some(c)
    ensures |key| < BlockSize ==> VerifySignature(Sign(c, key), key + "\0") == Some(c)
  {
    if |key| < BlockSize {
      HmacKeyPadding(key);
    }
  }

  // Go's 64-bit integers and time.Duration, counted in nanoseconds.
  const TwoTo63: int := 0x8000_0000_0000_0000
  const TwoTo64: int := 0x1_0000_0000_0000_0000
  type Int64 = x: int | -TwoTo63 <= x < TwoTo63

  const NanosPerSecond: int := 1_000_000_000
  const NanosPerMinute: int := 60_000_000_000

  /** The largest minute count whose duration in nanoseconds fits in 64 bits. */
  const MaxTtlMinutes: int := 153_722_867

  /** Two's-complement wrap-around of a 64-bit product. */
  function Wrap64(x: int): (r: Int64)
    ensures (r - x) % TwoTo64 == 0
    ensures -TwoTo63 <= x < TwoTo63 ==> r == x
  {
    (x + TwoTo63) % TwoTo64 - TwoTo63
  }

  /** Unix seconds of now plus ttl minutes, computed as the service does: the minute
      count times one minute as a 64-bit duration, added to the clock, then
      truncated to whole seconds (toward minus infinity). */
  function ExpirationTime(nowNanos: int, ttlMinutes: Int64): (t: int)
    ensures var instant := nowNanos + Wrap64(ttlMinutes * NanosPerMinute);
      t * NanosPerSecond <= instant < (t + 1) * NanosPerSecond
  {
    (nowNanos + Wrap64(ttlMinutes * NanosPerMinute)) / NanosPerSecond
  }

  lemma DivAddSeconds(n: int, k: int)
    ensures (n + k * NanosPerSecond) / NanosPerSecond == n / NanosPerSecond + k
  {
    var q, r := n / NanosPerSecond, n % NanosPerSecond;
    assert n == q * NanosPerSecond + r;
    assert n + k * NanosPerSecond == (q + k) * NanosPerSecond + r;
  }

  /** For any configured lifetime of at most MaxTtlMinutes either way the expiry
      is the current second plus 60 seconds per minute. */
  lemma {:induction false} ExpirationTimeInRange(nowNanos: int, ttlMinutes: Int64)
    requires -MaxTtlMinutes <= ttlMinutes <= MaxTtlMinutes
    ensures ExpirationTime(nowNanos, ttlMinutes) == nowNanos / NanosPerSecond + 60 * ttlMinutes
  {
    var d := ttlMinutes * NanosPerMinute;
    assert -TwoTo63 < -MaxTtlMinutes * NanosPerMinute <= d <= MaxTtlMinutes * NanosPerMinute < TwoTo63;
    assert Wrap64(d) == d;
    assert d == (60 * ttlMinutes) * NanosPerSecond;
    DivAddSeconds(nowNanos, 60 * ttlMinutes);
  }

  /** One minute more and the duration wraps negative: a token is issued
      already expired, whatever the clock reads. */
  lemma ExpirationTimeWrapsBeyondRange(now: int)
    ensures ExpirationTime(now, MaxTtlMinutes + 1) < now / NanosPerSecond
  {
    var d := (MaxTtlMinutes + 1) * NanosPerMinute;
    assert d == 9_223_372_080_000_000_000;
    assert Wrap64(d) == d - TwoTo64;
  }
}

=== FILE: properties.dfy ===
/** What the account service guarantees, stated over the functions that
    Login, Register, Update and the projections are proved equal to. */
module AccountProperties {
  import opened Wrappers
  import opened Errors
  import opened Roles
  import opened Text
  import opened Bcrypt
  import opened Jwt
  import opened Dto
  import opened Store
  import opened Services

  /** The row Register inserts for a request, given the salt the hash drew. */
  function CustomerRow(req: RegisterRequest, salt: Salt, id: Uuid): User {
    User(id, req.name, req.username, Prefix + salt + ExpandedKey(req.password), req.phoneNumber, req.email,
         Role(Customer, "CUSTOMER", "Customer"))
  }

  // ---------------------------------------------------------------- Login

  /** Login fails, with the lookup's or the library's error and no token, unless
      the username is found and the password matches its hash; on success the
      response carries the lower-cased projection of the first row with that username. */
  lemma LoginOutcome(db: Db, req: LoginRequest, now: int, config: Config)
    ensures var found := FindByUsername(db, req.username);
      && (found.Failure? ==> Login(db, req, now, config) == Failure(found.error))
      && (found.Success? && CompareHashAndPassword(found.value.password, req.password).Fail? ==>
            Login(db, req, now, config) == Failure(CompareHashAndPassword(found.value.password, req.password).error))
      && (Login(db, req, now, config).Success? <==>
            found.Success? && CompareHashAndPassword(found.value.password, req.password) == Pass)
    ensures Login(db, req, now, config).Success? ==>
      var i := FirstMatch(db.rows, ByUsername(req.username)).value;
      && Login(db, req, now, config).value.user == LoginView(db.rows[i])
      && Login(db, req, now, config).value.user.role == ToLower(db.rows[i].role.code)
  {
  }

  /** With a configured lifetime that fits in a 64-bit duration, the token
      expires 60 seconds per configured minute after the current second, and
      is live throughout that span. */
  lemma {:induction false} LoginExpiry(db: Db, req: LoginRequest, now: int, config: Config)
    requires -MaxTtlMinutes <= config.jwtExpirationTime <= MaxTtlMinutes
    requires Login(db, req, now, config).Success?
    ensures var c := Login(db, req, now, config).value.token.claims;
      && c.expiresAt == now / NanosPerSecond + 60 * config.jwtExpirationTime
      && forall t :: now / NanosPerSecond <= t < now / NanosPerSecond + 60 * config.jwtExpirationTime ==> Live(c, t)
  {
    ExpirationTimeInRange(now, config.jwtExpirationTime);
  }

  // ---------------------------------------------------------------- Register

  /** Register reports the first failing step in a fixed order (hashing,
      username taken, email taken, password mismatch) and then leaves the
      table as it was; the caller's role id plays no part. */
  lemma RegisterReportsInOrder(db: Db, req: RegisterRequest, entropy: Entropy, id: Uuid)
    ensures var out := RegisterOutcome(db, req, entropy, id);
      && (entropy.Unavailable? ==> out == (db, Failure(Bcrypt(RandomSourceFailure))))
      && (entropy.Drawn? && IsUsenameExist(db, req.username) ==> out == (db, Failure(UsernameExist)))
      && (entropy.Drawn? && !IsUsenameExist(db, req.username) && IsEmailExist(db, req.email) ==>
            out == (db, Failure(EmailExist)))
      && ((entropy.Drawn? && !IsUsenameExist(db, req.username) && !IsEmailExist(db, req.email)
           && req.password != req.confirmPassword) ==> out == (db, Failure(PasswordDoesNotMatch)))
    ensures forall roleId: nat :: RegisterOutcome(db, req.(roleId := roleId), entropy, id) == RegisterOutcome(db, req, entropy, id)
  {
  }

  /** Register succeeds exactly when every check passes and the store accepts
      the row; it then appends one Customer row holding the hash, not the
      password, and answers with that row's fields and its role code as stored. */
  lemma RegisterSucceeds(db: Db, req: RegisterRequest, entropy: Entropy, id: Uuid)
    ensures var out := RegisterOutcome(db, req, entropy, id);
      out.1.Success? <==>
        && entropy.Drawn?
        && !IsUsenameExist(db, req.username) && !IsEmailExist(db, req.email)
        && req.password == req.confirmPassword
        && RegisterOp !in db.failing && !Holds(db.rows, ByUuid(id))
    ensures var out := RegisterOutcome(db, req, entropy, id);
      out.1.Success? ==>
        var row := CustomerRow(req, entropy.salt, id);
        && out.0.rows == db.rows + [row]
        && (|req.password| <= MaxKeyLength ==> row.password != req.password)
        && CompareHashAndPassword(row.password, req.password) == Pass
        && out.1.value.user == RegisterView(row)
        && out.1.value.user.role == "CUSTOMER"
  {
    var out := RegisterOutcome(db, req, entropy, id);
    if out.1.Success? {
      var salt := entropy.salt;
      HashThenCompare(req.password, req.password, salt);
      var inserted := InsertRow(db, NewCustomer(req, Prefix + salt + ExpandedKey(req.password)), id);
      assert inserted.1.Success?;
      assert inserted.1.value == CustomerRow(req, salt, id);
    }
  }

  /** With lookups that fail only on not-found, Register keeps usernames and
      emails unique across the table. */
  lemma RegisterKeepsUniqueLogins(db: Db, req: RegisterRequest, entropy: Entropy, id: Uuid)
    requires UniqueLogins(db.rows)
    requires FindByUsernameOp !in db.failing && FindByEmailOp !in db.failing
    ensures UniqueLogins(RegisterOutcome(db, req, entropy, id).0.rows)
  {
    var out := RegisterOutcome(db, req, entropy, id);
    if out.1.Success? {
      RegisterSucceeds(db, req, entropy, id);
      var row := CustomerRow(req, entropy.salt, id);
      var s := db.rows + [row];
      assert !Holds(db.rows, ByUsername(req.username)) && !Holds(db.rows, ByEmail(req.email));
      forall i, j | 0 <= i < j < |s|
        ensures s[i].username != s[j].username && s[i].email != s[j].email
      {
        if j == |db.rows| {
          assert s[i] == db.rows[i] && s[j] == row;
          assert !Matches(db.rows[i], ByUsername(req.username));
          assert !Matches(db.rows[i], ByEmail(req.email));
        } else {
          assert s[i] == db.rows[i] && s[j] == db.rows[j];
        }
      }
    }
  }

  /** Once a username or an email is registered, registering it again is
      rejected: with UsernameExist when the username repeats, otherwise with
      EmailExist unless the new username is itself taken. */
  lemma RegisterTwiceRejects(db: Db, req: RegisterRequest, entropy: Entropy, id: Uuid,
                             again: RegisterRequest, salt: Salt, id2: Uuid)
    requires FindByUsernameOp !in db.failing && FindByEmailOp !in db.failing
    requires RegisterOutcome(db, req, entropy, id).1.Success?
    requires again.username == req.username || again.email == req.email
    ensures var db' := RegisterOutcome(db, req, entropy, id).0;
      var r := RegisterOutcome(db', again, Drawn(salt), id2).1;
      && (again.username == req.username ==> r == Failure(UsernameExist))
      && (r == Failure(UsernameExist) || r == Failure(EmailExist))
  {
    RegisterSucceeds(db, req, entropy, id);
    var row := CustomerRow(req, entropy.salt, id);
    var db' := RegisterOutcome(db, req, entropy, id).0;
    assert db'.rows[|db.rows|] == row;
    if again.username == req.username {
      assert Matches(db'.rows[|db.rows|], ByUsername(again.username));
    } else {
      assert Matches(db'.rows[|db.rows|], ByEmail(again.email));
    }
  }

  /** A failing username lookup reads as "free", so Register inserts a second
      row with a username that is already taken. */
  lemma LookupFailureAdmitsDuplicate()
    ensures var existing := CustomerRow(RegisterRequest("Arvel", "arvel", "arvel123", "arvel123", "arvel@gmail.com", "0827", 1),
                                        "......................", "u1");
      var db := Db([existing], {FindByUsernameOp});
      var req := RegisterRequest("Other", "arvel", "secret", "secret", "other@gmail.com", "0812", 2);
      var out := RegisterOutcome(db, req, Drawn("......................"), "u2");
      && UniqueLogins(db.rows)
      && out.1.Success?
      && !UniqueLogins(out.0.rows)
  {
    var existing := CustomerRow(RegisterRequest("Arvel", "arvel", "arvel123", "arvel123", "arvel@gmail.com", "0827", 1),
                                "......................", "u1");
    var db := Db([existing], {FindByUsernameOp});
    var req := RegisterRequest("Other", "arvel", "secret", "secret", "other@gmail.com", "0812", 2);
    assert !Holds(db.rows, ByEmail(req.email)) by {
      assert db.rows[0].email != req.email;
    }
    assert !Holds(db.rows, ByUuid("u2")) by {
      assert db.rows[0].uuid != "u2";
    }
    RegisterSucceeds(db, req, Drawn("......................"), "u2");
    var out := RegisterOutcome(db, req, Drawn("......................"), "u2");
    assert out.0.rows[0].username == out.0.rows[1].username;
  }

  // ---------------------------------------------------------------- Update

  /** Update reports its failures in order: unknown uuid, a changed username
      another user holds, a changed email another user holds, then a password
      mismatch; each leaves the table as it was. A conflict is reported as such
      unless its second lookup fails, whose database error is passed on instead.
      Keeping one's own username is never a username conflict, and keeping
      one's own email never an email conflict, whatever the other field does. */
  lemma UpdateReportsInOrder(db: Db, req: UpdateRequest, uuid: Uuid, entropy: Entropy)
    ensures var out := UpdateOutcome(db, req, uuid, entropy);
      var loaded := FindByUUID(db, uuid);
      && (loaded.Failure? ==> out == (db, Failure(loaded.error)))
      && (loaded.Success? && req.username != loaded.value.username && IsUsenameExist(db, req.username) ==>
            out == (db, Failure(if RecheckUsernameOp in db.failing then SQLError else UsernameExist)))
      && ((loaded.Success? && !(req.username != loaded.value.username && IsUsenameExist(db, req.username))
           && req.email != loaded.value.email && IsEmailExist(db, req.email)) ==>
            out == (db, Failure(if RecheckEmailOp in db.failing then SQLError else EmailExist)))
      && ((loaded.Success? && !(req.username != loaded.value.username && IsUsenameExist(db, req.username))
           && !(req.email != loaded.value.email && IsEmailExist(db, req.email))
           && req.password != req.confirmPassword) ==>
            out == (db, Failure(PasswordDoesNotMatch)))
    ensures var out := UpdateOutcome(db, req, uuid, entropy);
      var loaded := FindByUUID(db, uuid);
      loaded.Success? && req.username == loaded.value.username ==> out.1 != Failure(UsernameExist)
    ensures var out := UpdateOutcome(db, req, uuid, entropy);
      var loaded := FindByUUID(db, uuid);
      loaded.Success? && req.email == loaded.value.email ==> out.1 != Failure(EmailExist)
  {
  }

  /** Update with an unknown uuid fails with UserNotFound and changes nothing. */
  lemma UpdateUnknownUuid(db: Db, req: UpdateRequest, uuid: Uuid, entropy: Entropy)
    requires FindByUuidOp !in db.failing && !Holds(db.rows, ByUuid(uuid))
    ensures UpdateOutcome(db, req, uuid, entropy) == (db, Failure(UserNotFound))
  {
  }

  /** A successful Update rewrites the first row with that uuid and no other:
      the row keeps its uuid and role and takes the requested fields and the
      hash of the new password; the answer carries that uuid, the requested
      fields and no role. Under the repository's invariant of distinct uuids
      (UserRepository.Valid) that row is the only one with the uuid. */
  lemma UpdateChangesOnlyTarget(db: Db, req: UpdateRequest, uuid: Uuid, entropy: Entropy)
    requires UpdateOutcome(db, req, uuid, entropy).1.Success?
    ensures entropy.Drawn? && req.password == req.confirmPassword
    ensures var out := UpdateOutcome(db, req, uuid, entropy);
      var i := FirstMatch(db.rows, ByUuid(uuid)).value;
      && i < |db.rows| && db.rows[i].uuid == uuid
      && |out.0.rows| == |db.rows|
      && (forall j :: 0 <= j < |db.rows| && j != i ==> out.0.rows[j] == db.rows[j])
      && out.0.rows[i] == db.rows[i].(name := req.name, username := req.username,
                                      password := Prefix + entropy.salt + ExpandedKey(req.password),
                                      email := req.email, phoneNumber := req.phoneNumber)
      && out.1.value == UserResponse(uuid, req.name, req.username, req.phoneNumber, req.email, "")
    ensures var i := FirstMatch(db.rows, ByUuid(uuid)).value;
      DistinctUuids(db.rows) ==> forall j :: 0 <= j < |db.rows| && j != i ==> db.rows[j].uuid != uuid
  {
    var i := FirstMatch(db.rows, ByUuid(uuid)).value;
    if DistinctUuids(db.rows) {
      forall j | 0 <= j < |db.rows| && j != i
        ensures db.rows[j].uuid != uuid
      {
        if db.rows[j].uuid == uuid {
          UuidRowIsUnique(db.rows, uuid, j);
        }
      }
    }
  }

  /** With lookups that fail only on not-found, Update keeps usernames and
      emails unique across the table. */
  lemma UpdateKeepsUniqueLogins(db: Db, req: UpdateRequest, uuid: Uuid, entropy: Entropy)
    requires UniqueLogins(db.rows)
    requires FindByUsernameOp !in db.failing && FindByEmailOp !in db.failing
    ensures UniqueLogins(UpdateOutcome(db, req, uuid, entropy).0.rows)
  {
    var out := UpdateOutcome(db, req, uuid, entropy);
    if out.1.Success? {
      UpdateChangesOnlyTarget(db, req, uuid, entropy);
      var i := FirstMatch(db.rows, ByUuid(uuid)).value;
      var old_ := db.rows[i];
      var s := out.0.rows;
      forall j | 0 <= j < |db.rows| && j != i
        ensures s[j].username != req.username && s[j].email != req.email
      {
        assert s[j] == db.rows[j];
        if req.username == old_.username {
          assert db.rows[j].username != old_.username;
        } else {
          assert !Matches(db.rows[j], ByUsername(req.username));
        }
        if req.email == old_.email {
          assert db.rows[j].email != old_.email;
        } else {
          assert !Matches(db.rows[j], ByEmail(req.email));
        }
      }
      forall a, b | 0 <= a < b < |s|
        ensures s[a].username != s[b].username && s[a].email != s[b].email
      {
        if a != i && b != i {
          assert s[a] == db.rows[a] && s[b] == db.rows[b];
        }
      }
    }
  }

  // ---------------------------------------------------------------- across operations

  /** A user who has just registered can log in with every password the
      library cannot tell from the registered one, and with no other: the
      token's projection is the new row's, with the role "customer". */
  lemma RegisterThenLogin(db: Db, req: RegisterRequest, entropy: Entropy, id: Uuid,
                          attempt: string, now: int, config: Config)
    requires FindByUsernameOp !in db.failing
    requires RegisterOutcome(db, req, entropy, id).1.Success?
    ensures var db' := RegisterOutcome(db, req, entropy, id).0;
      var r := Login(db', LoginRequest(req.username, attempt), now, config);
      && (r.Success? <==> ExpandedKey(attempt) == ExpandedKey(req.password))
      && (r.Failure? ==> r.error == Bcrypt(MismatchedHashAndPassword))
      && (r.Success? ==> r.value.user == UserResponse(id, req.name, req.username, req.phoneNumber, req.email, "customer"))
      && (r.Failure? ==>
            LoginReportingIncorrectPassword(db', LoginRequest(req.username, attempt), now, config) == Failure(PasswordIncorrect))
  {
    RegisterSucceeds(db, req, entropy, id);
    var row := CustomerRow(req, entropy.salt, id);
    var db' := RegisterOutcome(db, req, entropy, id).0;
    FirstMatchAppendNew(db.rows, row, ByUsername(req.username));
    assert FindByUsername(db', req.username) == Success(row);
    HashThenCompare(req.password, attempt, entropy.salt);
    RoleCodesLowerCase();
  }

  /** For passwords of at most 72 bytes without NUL bytes, the new user logs in
      with exactly the registered password. */
  lemma RegisterThenLoginExactly(db: Db, req: RegisterRequest, entropy: Entropy, id: Uuid,
                                 attempt: string, now: int, config: Config)
    requires FindByUsernameOp !in db.failing
    requires RegisterOutcome(db, req, entropy, id).1.Success?
    requires |attempt| <= MaxKeyLength && |req.password| <= MaxKeyLength && NoNul(attempt) && NoNul(req.password)
    ensures var db' := RegisterOutcome(db, req, entropy, id).0;
      Login(db', LoginRequest(req.username, attempt), now, config).Success? <==> attempt == req.password
  {
    RegisterThenLogin(db, req, entropy, id, attempt, now, config);
    ExpandedKeyInjective(attempt, req.password);
  }

  /** Registering one user leaves every other username's lookup, and so its
      Login, as it was. */
  lemma RegisterKeepsOtherLogins(db: Db, req: RegisterRequest, entropy: Entropy, id: Uuid,
                                 other: LoginRequest, now: int, config: Config)
    requires other.username != req.username
    ensures var db' := RegisterOutcome(db, req, entropy, id).0;
      && FindByUsername(db', other.username) == FindByUsername(db, other.username)
      && Login(db', other, now, config) == Login(db, other, now, config)
  {
    var out := RegisterOutcome(db, req, entropy, id);
    if out.1.Success? {
      RegisterSucceeds(db, req, entropy, id);
      FirstMatchAppendOther(db.rows, CustomerRow(req, entropy.salt, id), ByUsername(other.username));
    }
  }

  /** What Register answers is what GetUserByUUID later returns for the new
      uuid, except the role: Register gives the stored code, GetUserByUUID none. */
  lemma RegisterThenGetUserByUUID(db: Db, req: RegisterRequest, entropy: Entropy, id: Uuid)
    requires FindByUuidOp !in db.failing
    requires RegisterOutcome(db, req, entropy, id).1.Success?
    ensures var out := RegisterOutcome(db, req, entropy, id);
      var view := out.1.value.user;
      && GetUserByUUID(out.0, id) == Success(view.(role := ""))
      && view.role == "CUSTOMER"
  {
    RegisterSucceeds(db, req, entropy, id);
    var row := CustomerRow(req, entropy.salt, id);
    FirstMatchAppendNew(db.rows, row, ByUuid(id));
  }

  /** GetUserLogin gives back the identity unchanged exactly when its phone
      number equals its username. */
  lemma GetUserLoginKeepsIdentity(identity: UserResponse)
    ensures GetUserLogin(identity) == identity <==> identity.phoneNumber == identity.username
  {
  }
}

=== FILE: scenarios.dfy ===
/** Concrete runs of the service, and the three places where the source does
    something other than what it evidently intends. */
module Scenarios {
  import opened Wrappers
  import opened Errors
  import opened Roles
  import opened Bcrypt
  import opened Jwt
  import opened Dto
  import opened Store
  import opened Services
  import opened AccountProperties

  const SaltA: Salt := "abcdefghijklmnopqrstuv"
  const Arvel := RegisterRequest("Arvel", "arvel", "arvel123", "arvel123", "arvel@x.com", "0827", Admin)
  const Settings := Config(60, "secret")
  /** 2023-11-14T22:13:20Z in Unix nanoseconds. */
  const Now := 1_700_000_000 * NanosPerSecond

  /** Registering "arvel" in an empty store succeeds with the Customer role even
      though the request asks for Admin; the right password then logs in, a
      wrong one is refused with the hashing library's mismatch error, and the
      service's own PasswordIncorrect is never returned. */
  lemma ArvelRegistersAndLogsIn()
    ensures var out := RegisterOutcome(Db([], {}), Arvel, Drawn(SaltA), "u1");
      && out.1.Success?
      && out.1.value.user == UserResponse("u1", "Arvel", "arvel", "0827", "arvel@x.com", "CUSTOMER")
      && Login(out.0, LoginRequest("arvel", "arvel123"), Now, Settings).Success?
      && Login(out.0, LoginRequest("arvel", "arvel123"), Now, Settings).value.user.role == "customer"
      && Login(out.0, LoginRequest("arvel", "wrong"), Now, Settings) == Failure(Bcrypt(MismatchedHashAndPassword))
      && LoginReportingIncorrectPassword(out.0, LoginRequest("arvel", "wrong"), Now, Settings) == Failure(PasswordIncorrect)
  {
    var db := Db([], {});
    RegisterSucceeds(db, Arvel, Drawn(SaltA), "u1");
    RegisterThenLogin(db, Arvel, Drawn(SaltA), "u1", "arvel123", Now, Settings);
    RegisterThenLogin(db, Arvel, Drawn(SaltA), "u1", "wrong", Now, Settings);
  }

  /** A password of 72 "a"s: the longest the key schedule reads in full. */
  const LongPassword: string := seq(MaxKeyLength, _ => 'a')

  /** A user registered with a 72-byte password also logs in with that
      password followed by anything: bytes past the 72nd are never compared. */
  lemma LongPasswordTailIgnored()
    ensures var req := Arvel.(password := LongPassword, confirmPassword := LongPassword);
      var out := RegisterOutcome(Db([], {}), req, Drawn(SaltA), "u1");
      && out.1.Success?
      && Login(out.0, LoginRequest("arvel", LongPassword + "b"), Now, Settings).Success?
  {
    var req := Arvel.(password := LongPassword, confirmPassword := LongPassword);
    RegisterSucceeds(Db([], {}), req, Drawn(SaltA), "u1");
    ExpandedKeyIgnoresTail(LongPassword, "b");
    RegisterThenLogin(Db([], {}), req, Drawn(SaltA), "u1", LongPassword + "b", Now, Settings);
  }

  /** Users "a" and "b" exist; renaming b to "a" is refused with UsernameExist
      and the table is left as it was. */
  lemma UpdateToTakenUsername()
    ensures var a := User("ua", "A", "a", "h", "01", "a@x.com", Seeded[1]);
      var b := User("ub", "B", "b", "h", "02", "b@x.com", Seeded[1]);
      var db := Db([a, b], {});
      UpdateOutcome(db, UpdateRequest("B", "a", "pw", "pw", "b@x.com", "02"), "ub", Drawn(SaltA)) == (db, Failure(UsernameExist))
  {
    var a := User("ua", "A", "a", "h", "01", "a@x.com", Seeded[1]);
    var b := User("ub", "B", "b", "h", "02", "b@x.com", Seeded[1]);
    var db := Db([a, b], {});
    assert Matches(db.rows[1], ByUuid("ub"));
    assert Matches(db.rows[0], ByUsername("a"));
  }

  /** As written, GetUserLogin replaces the phone number with the username. */
  lemma GetUserLoginDropsPhoneNumber()
    ensures var identity := UserResponse("u1", "Arvel", "arvel", "08273648237", "arvel@gmail.com", "admin");
      GetUserLogin(identity).phoneNumber == "arvel" != identity.phoneNumber
      && GetUserLoginIntended(identity).phoneNumber == identity.phoneNumber
  {
  }

  /** The service never returns its own PasswordIncorrect: not from Login, where
      a wrong password gets the hashing library's error, and not from Register,
      Update or GetUserByUUID. */
  lemma PasswordIncorrectNeverReturned(db: Db, login: LoginRequest, now: int, config: Config,
                                       reg: RegisterRequest, upd: UpdateRequest, uuid: Uuid, entropy: Entropy)
    ensures Login(db, login, now, config) != Failure(PasswordIncorrect)
    ensures RegisterOutcome(db, reg, entropy, uuid).1 != Failure(PasswordIncorrect)
    ensures UpdateOutcome(db, upd, uuid, entropy).1 != Failure(PasswordIncorrect)
    ensures GetUserByUUID(db, uuid) != Failure(PasswordIncorrect)
  {
  }

  /** An email conflict on Register returns EmailExist, which the error list as
      written does not contain. */
  lemma EmailConflictIsNotListed()
    ensures var existing := User("u1", "Arvel", "arvel", "h", "0827", "arvel@x.com", Seeded[1]);
      var req := RegisterRequest("Other", "other", "pw", "pw", "arvel@x.com", "0812", Customer);
      var r := RegisterOutcome(Db([existing], {}), req, Drawn(SaltA), "u2").1;
      r == Failure(EmailExist) && r.error !in UserErrors && r.error in UserErrorsComplete
  {
    var existing := User("u1", "Arvel", "arvel", "h", "0827", "arvel@x.com", Seeded[1]);
    var db := Db([existing], {});
    assert Matches(db.rows[0], ByEmail("arvel@x.com"));
    UserErrorsOmitsEmailExist(EmailExist);
    UserErrorsCompleteListsDomain(EmailExist);
  }
}

=== FILE: services.dfy ===
/** The account service: Login, the existence checks, Register, Update and the
    two read projections.

    The operations that only read are functions of a store snapshot (a Db value);
    Register and Update change the users table and are methods of UserService,
    each proved equal to a function of the old snapshot (RegisterOutcome,
    UpdateOutcome) about which the properties are stated. The clock, the random
    source behind bcrypt and the configuration are parameters. */
module Services {
  import opened Wrappers
  import opened Errors
  import opened Roles
  import opened Text
  import opened Bcrypt
  import opened Jwt
  import opened Dto
  import opened Store

  /** The two configuration values the service reads. */
  datatype Config = Config(jwtExpirationTime: Int64, jwtSecretKey: string)

  datatype LoginResponse = LoginResponse(user: UserResponse, token: Token)

  /** The public projection Login builds, with the role code lower-cased. */
  function LoginView(user: User): (v: UserResponse)
    ensures v.role == ToLower(user.role.code)
    ensures v.uuid == user.uuid && v.name == user.name && v.username == user.username
    ensures v.phoneNumber == user.phoneNumber && v.email == user.email
  {
    UserResponse(user.uuid, user.name, user.username, user.phoneNumber, user.email, ToLower(user.role.code))
  }

  /** Looks the user up, checks the password, and signs claims that carry the
      same projection the response returns. `now` is the clock in Unix nanoseconds. */
  function Login(db: Db, req: LoginRequest, now: int, config: Config): (r: Result<LoginResponse>)
    ensures r.Success? ==> r.value.token.claims.user == r.value.user
    ensures r.Success? ==> r.value.user.username == req.username
    ensures r.Success? ==> r.value.token.claims.expiresAt == ExpirationTime(now, config.jwtExpirationTime)
    ensures r.Success? ==> VerifySignature(r.value.token, config.jwtSecretKey) == Some(r.value.token.claims)
    ensures r.Failure? ==> r.error in {UserNotFound, SQLError} || r.error.Bcrypt?
  {
    match FindByUsername(db, req.username)
    case Failure(e) => Failure(e)
    case Success(user) =>
      match CompareHashAndPassword(user.password, req.password)
      case Fail(e) => Failure(e)
      case Pass =>
        var expirationTime := ExpirationTime(now, config.jwtExpirationTime);
        var data := LoginView(user);
        var claims := Claims(data, expirationTime);
        Success(LoginResponse(data, Sign(claims, config.jwtSecretKey)))
  }

  /** True exactly when the username lookup returns a user; a lookup error reads as "free". */
  function IsUsenameExist(db: Db, username: string): (taken: bool)
    ensures taken <==> FindByUsernameOp !in db.failing && Holds(db.rows, ByUsername(username))
  {
    match FindByUsername(db, username)
    case Failure(_) => false
    case Success(_) => true
  }

  /** True exactly when the email lookup returns a user; a lookup error reads as "free". */
  function IsEmailExist(db: Db, email: string): (taken: bool)
    ensures taken <==> FindByEmailOp !in db.failing && Holds(db.rows, ByEmail(email))
  {
    match FindByEmail(db, email)
    case Failure(_) => false
    case Success(_) => true
  }

  /** The fields Register passes to the store: the hash, and always the Customer role. */
  function NewCustomer(req: RegisterRequest, hashedPassword: string): (n: NewUser)
    ensures n.roleId == Customer && n.password == hashedPassword
    ensures n.name == req.name && n.username == req.username && n.email == req.email
    ensures n.phoneNumber == req.phoneNumber
  {
    NewUser(req.name, req.username, hashedPassword, req.email, req.phoneNumber, Customer)
  }

  /** Register's projection of the inserted row: the role code as stored. */
  function RegisterView(user: User): (v: UserResponse)
    ensures v.role == user.role.code
    ensures v.uuid == user.uuid && v.name == user.name && v.username == user.username
    ensures v.phoneNumber == user.phoneNumber && v.email == user.email
  {
    UserResponse(user.uuid, user.name, user.username, user.phoneNumber, user.email, user.role.code)
  }

  /** The store after Register and its answer, in the order the service decides:
      hash first, then username taken, email taken, password mismatch, then the insert. */
  function RegisterOutcome(db: Db, req: RegisterRequest, entropy: Entropy, id: Uuid): (out: (Db, Result<RegisterResponse>))
    ensures out.0.failing == db.failing
    ensures out.1.Failure? ==> out.0 == db
    ensures out.1.Success? ==> |out.0.rows| == |db.rows| + 1 && out.0.rows[..|db.rows|] == db.rows
  {
    match GenerateFromPassword(req.password, entropy)
    case Failure(e) => (db, Failure(e))
    case Success(hashedPassword) =>
      if IsUsenameExist(db, req.username) then (db, Failure(UsernameExist))
      else if IsEmailExist(db, req.email) then (db, Failure(EmailExist))
      else if req.password != req.confirmPassword then (db, Failure(PasswordDoesNotMatch))
      else
        var (db', inserted) := InsertRow(db, NewCustomer(req, hashedPassword), id);
        match inserted
        case Failure(e) => (db', Failure(e))
        case Success(user) => (db', Success(RegisterResponse(RegisterView(user))))
  }

  /** The fields Update passes to the store. */
  function UpdatedFields(req: UpdateRequest, hashedPassword: string): (f: UserFields)
    ensures f.password == hashedPassword
    ensures f.name == req.name && f.username == req.username && f.email == req.email
    ensures f.phoneNumber == req.phoneNumber
  {
    UserFields(req.name, req.username, hashedPassword, req.email, req.phoneNumber)
  }

  /** Update's projection: uuid from the row loaded first, the rest from the
      row the store returned, and no role. */
  function UpdateView(loaded: User, updated: User): (v: UserResponse)
    ensures v.uuid == loaded.uuid && v.role == ""
    ensures v.name == updated.name && v.username == updated.username
    ensures v.phoneNumber == updated.phoneNumber && v.email == updated.email
  {
    UserResponse(loaded.uuid, updated.name, updated.username, updated.phoneNumber, updated.email, "")
  }

  /** The store after Update and its answer: load by uuid, reject a changed
      username or email that another user holds (after looking it up a second
      time, whose own error is passed on), reject a password mismatch, hash,
      then rewrite the row. */
  function UpdateOutcome(db: Db, req: UpdateRequest, uuid: Uuid, entropy: Entropy): (out: (Db, Result<UserResponse>))
    ensures out.0.failing == db.failing
    ensures out.1.Failure? ==> out.0 == db
    ensures out.1.Success? ==> |out.0.rows| == |db.rows| && out.1.value.uuid == uuid && out.1.value.role == ""
  {
    match FindByUUID(db, uuid)
    case Failure(e) => (db, Failure(e))
    case Success(user) =>
      if IsUsenameExist(db, req.username) && user.username != req.username then
        match RecheckUsername(db, req.username)
        case Failure(e) => (db, Failure(e))
        case Success(_) => (db, Failure(UsernameExist))
      else if IsEmailExist(db, req.email) && user.email != req.email then
        match RecheckEmail(db, req.email)
        case Failure(e) => (db, Failure(e))
        case Success(_) => (db, Failure(EmailExist))
      else if req.password != req.confirmPassword then (db, Failure(PasswordDoesNotMatch))
      else
        match GenerateFromPassword(req.password, entropy)
        case Failure(e) => (db, Failure(e))
        case Success(hashedPassword) =>
          var (db', updated) := UpdateRow(db, uuid, UpdatedFields(req, hashedPassword));
          match updated
          case Failure(e) => (db', Failure(e))
          case Success(userResult) => (db', Success(UpdateView(user, userResult)))
  }

  /** The identity the authentication middleware put in the request, projected
      again; the phone number is taken from the username. */
  function GetUserLogin(identity: UserResponse): (v: UserResponse)
    ensures v.phoneNumber == identity.username
    ensures v.uuid == identity.uuid && v.name == identity.name && v.username == identity.username
    ensures v.email == identity.email && v.role == identity.role
  {
    UserResponse(identity.uuid, identity.name, identity.username, identity.username, identity.email, identity.role)
  }

  /** GetUserLogin as evidently intended: every field of the identity, the phone
      number included, is passed through. */
  function GetUserLoginIntended(identity: UserResponse): (v: UserResponse)
    ensures v == identity
  {
    UserResponse(identity.uuid, identity.name, identity.username, identity.phoneNumber, identity.email, identity.role)
  }

  /** Login as evidently intended: a password that does not match its hash is
      reported as PasswordIncorrect; every other outcome is Login's. */
  function LoginReportingIncorrectPassword(db: Db, req: LoginRequest, now: int, config: Config): (r: Result<LoginResponse>)
    ensures r == Failure(PasswordIncorrect) <==> Login(db, req, now, config) == Failure(Bcrypt(MismatchedHashAndPassword))
    ensures r != Failure(PasswordIncorrect) ==> r == Login(db, req, now, config)
  {
    match Login(db, req, now, config)
    case Failure(Bcrypt(MismatchedHashAndPassword)) => Failure(PasswordIncorrect)
    case other => other
  }

  /** A stored row's public fields, without its role. */
  function StoredView(user: User): (v: UserResponse)
    ensures v.uuid == user.uuid && v.name == user.name && v.username == user.username
    ensures v.phoneNumber == user.phoneNumber && v.email == user.email && v.role == ""
  {
    UserResponse(user.uuid, user.name, user.username, user.phoneNumber, user.email, "")
  }

  /** The user with the given uuid, without its role. */
  function GetUserByUUID(db: Db, uuid: Uuid): (r: Result<UserResponse>)
    ensures r.Success? <==> FindByUuidOp !in db.failing && Holds(db.rows, ByUuid(uuid))
    ensures r.Failure? ==> r.error in {UserNotFound, SQLError}
    ensures r.Success? ==> r.value.uuid == uuid && r.value.role == ""
    ensures r.Success? ==>
      exists i :: 0 <= i < |db.rows| && db.rows[i].uuid == uuid && r.value == StoredView(db.rows[i])
  {
    match FindByUUID(db, uuid)
    case Failure(e) => Failure(e)
    case Success(user) => Success(StoredView(user))
  }

  /** The service holds its repository and no state of its own. */
  class UserService {
    const repository: UserRepository

    constructor (repository: UserRepository)
      ensures this.repository == repository
    {
      this.repository := repository;
    }

    method Register(req: RegisterRequest, entropy: Entropy, id: Uuid) returns (r: Result<RegisterResponse>)
      requires repository.Valid()
      modifies repository
      ensures repository.Valid()
      ensures (repository.State(), r) == RegisterOutcome(old(repository.State()), req, entropy, id)
    {
      var hashed := GenerateFromPassword(req.password, entropy);
      if hashed.Failure? {
        return Failure(hashed.error);
      }
      if IsUsenameExist(repository.State(), req.username) {
        return Failure(UsernameExist);
      }
      if IsEmailExist(repository.State(), req.email) {
        return Failure(EmailExist);
      }
      if req.password != req.confirmPassword {
        return Failure(PasswordDoesNotMatch);
      }
      var inserted := repository.Register(NewCustomer(req, hashed.value), id);
      if inserted.Failure? {
        return Failure(inserted.error);
      }
      r := Success(RegisterResponse(RegisterView(inserted.value)));
    }

    method Update(req: UpdateRequest, uuid: Uuid, entropy: Entropy) returns (r: Result<UserResponse>)
      requires repository.Valid()
      modifies repository
      ensures repository.Valid()
      ensures (repository.State(), r) == UpdateOutcome(old(repository.State()), req, uuid, entropy)
    {
      var user := FindByUUID(repository.State(), uuid);
      if user.Failure? {
        return Failure(user.error);
      }
      var isUsernameExist := IsUsenameExist(repository.State(), req.username);
      if isUsernameExist && user.value.username != req.username {
        var checkUsername := RecheckUsername(repository.State(), req.username);
        match checkUsername {
          case Failure(e) => return Failure(e);
          case Success(_) => return Failure(UsernameExist);
        }
      }
      var isEmailExist := IsEmailExist(repository.State(), req.email);
      if isEmailExist && user.value.email != req.email {
        var checkEmail := RecheckEmail(repository.State(), req.email);
        match checkEmail {
          case Failure(e) => return Failure(e);
          case Success(_) => return Failure(EmailExist);
        }
      }
      if req.password != req.confirmPassword {
        return Failure(PasswordDoesNotMatch);
      }
      var hashed := GenerateFromPassword(req.password, entropy);
      if hashed.Failure? {
        return Failure(hashed.error);
      }
      var userResult := repository.Update(UpdatedFields(req, hashed.value), uuid);
      if userResult.Failure? {
        return Failure(userResult.error);
      }
      r := Success(UpdateView(user.value, userResult.value));
    }
  }
}

=== FILE: store.dfy ===
/** The users table the service reads and writes through its repository.

    Rows are kept in primary-key order, which is insertion order; a lookup returns
    the first matching row, as a "first record" query does. The set `failing`
    names the store calls that fail with a database error during one operation
    of the service; the service never changes it. The table does not itself
    enforce unique usernames or emails: only the service's checks stand between
    a request and a duplicate. */
module Store {
  import opened Wrappers
  import opened Errors
  import opened Roles
  import opened Dto

  /** A row of the users table, with its role loaded. */
  datatype User = User(
    uuid: Uuid,
    name: string,
    username: string,
    password: string,
    phoneNumber: string,
    email: string,
    role: Role)

  /** What the service hands the repository's Register. */
  datatype NewUser = NewUser(
    name: string,
    username: string,
    password: string,
    email: string,
    phoneNumber: string,
    roleId: nat)

  /** What the service hands the repository's Update. */
  datatype UserFields = UserFields(
    name: string,
    username: string,
    password: string,
    email: string,
    phoneNumber: string)

  /** The store calls the service makes, one tag per call site. Update looks a
      taken username or email up a second time; those second lookups have tags
      of their own, so that they can fail where the first one succeeded. */
  datatype StoreOp =
    | FindByUsernameOp
    | FindByEmailOp
    | FindByUuidOp
    | RecheckUsernameOp
    | RecheckEmailOp
    | RegisterOp
    | UpdateOp

  /** A snapshot of the store: its rows and the calls that currently fail. */
  datatype Db = Db(rows: seq<User>, failing: set<StoreOp>)

  datatype Key = ByUsername(username: string) | ByEmail(email: string) | ByUuid(uuid: Uuid)

  predicate Matches(u: User, k: Key) {
    match k
    case ByUsername(n) => u.username == n
    case ByEmail(e) => u.email == e
    case ByUuid(id) => u.uuid == id
  }

  /** Whether some row matches the key. */
  predicate Holds(rows: seq<User>, k: Key) {
    exists i :: 0 <= i < |rows| && Matches(rows[i], k)
  }

  /** The index of the first row matching the key. */
  function FirstMatch(rows: seq<User>, k: Key): (i: Option<nat>)
    ensures i.None? <==> !Holds(rows, k)
    ensures i.Some? ==> i.value < |rows| && Matches(rows[i.value], k)
    ensures i.Some? ==> forall j :: 0 <= j < i.value ==> !Matches(rows[j], k)
  {
    if rows == [] then None
    else if Matches(rows[0], k) then Some(0)
    else
      match FirstMatch(rows[1..], k)
      case None => None
      case Some(j) => Some(j + 1)
  }

  /** A lookup made by the call `op`: a database error if that call is failing,
      UserNotFound if no row matches, otherwise the first matching row. */
  function Lookup(db: Db, op: StoreOp, k: Key): (r: Result<User>)
    ensures op in db.failing ==> r == Failure(SQLError)
    ensures op !in db.failing ==> (r.Success? <==> Holds(db.rows, k))
    ensures op !in db.failing && !Holds(db.rows, k) ==> r == Failure(UserNotFound)
    ensures r.Success? ==> exists i :: 0 <= i < |db.rows| && db.rows[i] == r.value && Matches(r.value, k)
  {
    if op in db.failing then Failure(SQLError)
    else
      match FirstMatch(db.rows, k)
      case None => Failure(UserNotFound)
      case Some(i) => Success(db.rows[i])
  }

  function FindByUsername(db: Db, username: string): Result<User> {
    Lookup(db, FindByUsernameOp, ByUsername(username))
  }

  function FindByEmail(db: Db, email: string): Result<User> {
    Lookup(db, FindByEmailOp, ByEmail(email))
  }

  function FindByUUID(db: Db, uuid: Uuid): Result<User> {
    Lookup(db, FindByUuidOp, ByUuid(uuid))
  }

  /** Update's second lookup of a username it found taken. */
  function RecheckUsername(db: Db, username: string): Result<User> {
    Lookup(db, RecheckUsernameOp, ByUsername(username))
  }

  /** Update's second lookup of an email it found taken. */
  function RecheckEmail(db: Db, email: string): Result<User> {
    Lookup(db, RecheckEmailOp, ByEmail(email))
  }

  /** No two rows share a uuid (the table's primary identifier). */
  ghost predicate DistinctUuids(rows: seq<User>) {
    forall i, j :: 0 <= i < j < |rows| ==> rows[i].uuid != rows[j].uuid
  }

  /** No two rows share a username or an email. */
  ghost predicate UniqueLogins(rows: seq<User>) {
    forall i, j :: 0 <= i < j < |rows| ==> rows[i].username != rows[j].username && rows[i].email != rows[j].email
  }

  /** Inserting a row: a database error if the call is failing, the uuid is
      already used, or the role does not exist; otherwise the row is appended
      with its role loaded and returned. */
  function InsertRow(db: Db, fields: NewUser, id: Uuid): (out: (Db, Result<User>))
    ensures out.0.failing == db.failing
    ensures out.1.Failure? ==> out.0 == db && out.1.error == SQLError
    ensures out.1.Success? <==> RegisterOp !in db.failing && !Holds(db.rows, ByUuid(id)) && RoleById(fields.roleId).Some?
    ensures out.1.Success? ==> out.0.rows == db.rows + [out.1.value]
    ensures out.1.Success? ==> var u := out.1.value;
      && u.uuid == id && u.name == fields.name && u.username == fields.username
      && u.password == fields.password && u.email == fields.email
      && u.phoneNumber == fields.phoneNumber && u.role.id == fields.roleId
    ensures DistinctUuids(db.rows) ==> DistinctUuids(out.0.rows)
  {
    if RegisterOp in db.failing || FirstMatch(db.rows, ByUuid(id)).Some? then (db, Failure(SQLError))
    else
      match RoleById(fields.roleId)
      case None => (db, Failure(SQLError))
      case Some(role) =>
        var u := User(id, fields.name, fields.username, fields.password, fields.phoneNumber, fields.email, role);
        (db.(rows := db.rows + [u]), Success(u))
  }

  /** Overwriting the mutable fields of the row with the given uuid: a database
      error if the call is failing, UserNotFound if there is no such row;
      otherwise the row keeps its uuid and role and takes the new fields. */
  function UpdateRow(db: Db, id: Uuid, fields: UserFields): (out: (Db, Result<User>))
    ensures out.0.failing == db.failing
    ensures out.1.Failure? ==> out.0 == db
    ensures out.1.Success? <==> UpdateOp !in db.failing && Holds(db.rows, ByUuid(id))
    ensures out.1.Success? ==> var i := FirstMatch(db.rows, ByUuid(id)).value; var u := out.1.value;
      && out.0.rows == db.rows[i := u]
      && u.uuid == id && u.role == db.rows[i].role
      && u.name == fields.name && u.username == fields.username && u.password == fields.password
      && u.email == fields.email && u.phoneNumber == fields.phoneNumber
    ensures DistinctUuids(db.rows) ==> DistinctUuids(out.0.rows)
  {
    if UpdateOp in db.failing then (db, Failure(SQLError))
    else
      match FirstMatch(db.rows, ByUuid(id))
      case None => (db, Failure(UserNotFound))
      case Some(i) =>
        var u := db.rows[i].(name := fields.name, username := fields.username, password := fields.password,
                             email := fields.email, phoneNumber := fields.phoneNumber);
        (db.(rows := db.rows[i := u]), Success(u))
  }

  /** With distinct uuids, the row a uuid lookup finds is the only row with that uuid. */
  lemma {:induction false} UuidRowIsUnique(rows: seq<User>, id: Uuid, j: nat)
    requires DistinctUuids(rows) && j < |rows| && rows[j].uuid == id
    ensures FirstMatch(rows, ByUuid(id)) == Some(j)
  {
    assert Matches(rows[j], ByUuid(id));
  }

  /** Appending a row that matches a key nothing matched before makes it the first match. */
  lemma FirstMatchAppendNew(rows: seq<User>, u: User, k: Key)
    requires !Holds(rows, k) && Matches(u, k)
    ensures FirstMatch(rows + [u], k) == Some(|rows|)
  {
    var s := rows + [u];
    assert s[|rows|] == u;
    assert forall j :: 0 <= j < |rows| ==> s[j] == rows[j];
  }

  /** Appending a row that does not match a key leaves that key's first match where it was. */
  lemma FirstMatchAppendOther(rows: seq<User>, u: User, k: Key)
    requires !Matches(u, k)
    ensures FirstMatch(rows + [u], k) == FirstMatch(rows, k)
  {
    var s := rows + [u];
    assert forall j :: 0 <= j < |rows| ==> s[j] == rows[j];
    if Holds(s, k) {
      var j :| 0 <= j < |s| && Matches(s[j], k);
      assert j < |rows| && Matches(rows[j], k);
    }
  }

  class UserRepository {
    var rows: seq<User>
    var failing: set<StoreOp>

    ghost predicate Valid()
      reads this
    {
      DistinctUuids(rows)
    }

    function State(): Db
      reads this
    {
      Db(rows, failing)
    }

    constructor (rows: seq<User>, failing: set<StoreOp>)
      requires DistinctUuids(rows)
      ensures Valid() && State() == Db(rows, failing)
    {
      this.rows := rows;
      this.failing := failing;
    }

    /** Inserts a new user under the uuid the caller drew. */
    method Register(fields: NewUser, id: Uuid) returns (r: Result<User>)
      requires Valid()
      modifies this
      ensures Valid()
      ensures (State(), r) == InsertRow(old(State()), fields, id)
    {
      if RegisterOp in failing || FirstMatch(rows, ByUuid(id)).Some? {
        return Failure(SQLError);
      }
      var role := RoleById(fields.roleId);
      if role.None? {
        return Failure(SQLError);
      }
      var u := User(id, fields.name, fields.username, fields.password, fields.phoneNumber, fields.email, role.value);
      rows := rows + [u];
      r := Success(u);
    }

    /** Overwrites the mutable fields of the user with the given uuid. */
    method Update(fields: UserFields, id: Uuid) returns (r: Result<User>)
      requires Valid()
      modifies this
      ensures Valid()
      ensures (State(), r) == UpdateRow(old(State()), id, fields)
    {
      if UpdateOp in failing {
        return Failure(SQLError);
      }
      var found := FirstMatch(rows, ByUuid(id));
      if found.None? {
        return Failure(UserNotFound);
      }
      var i := found.value;
      var u := rows[i].(name := fields.name, username := fields.username, password := fields.password,
                        email := fields.email, phoneNumber := fields.phoneNumber);
      rows := rows[i := u];
      r := Success(u);
    }
  }
}

=== FILE: text.dfy ===
/** Lower-casing of role codes, restricted to ASCII letters. */
module Text {
  predicate IsAsciiUpper(c: char) {
    'A' <= c <= 'Z'
  }

  /** One character lower-cased: A-Z move to a-z, everything else is kept. */
  function LowerChar(c: char): (d: char)
    ensures IsAsciiUpper(c) ==> d as int == c as int + 32
    ensures !IsAsciiUpper(c) ==> d == c
    ensures !IsAsciiUpper(d)
  {
    if IsAsciiUpper(c) then (c as int + 32) as char else c
  }

  /** The string lower-cased character by character. */
  function ToLower(s: string): (r: string)
    ensures |r| == |s|
    ensures forall i :: 0 <= i < |s| ==> r[i] == LowerChar(s[i])
  {
    if s == [] then [] else [LowerChar(s[0])] + ToLower(s[1..])
  }

  /** Lower-casing leaves no upper-case ASCII letter behind and is idempotent. */
  lemma ToLowerIsLower(s: string)
    ensures forall i :: 0 <= i < |s| ==> !IsAsciiUpper(ToLower(s)[i])
    ensures ToLower(ToLower(s)) == ToLower(s)
  {
    var r := ToLower(s);
    assert forall i :: 0 <= i < |r| ==> ToLower(r)[i] == LowerChar(r[i]) == r[i];
  }

  /** The two seeded role codes lower-case to "admin" and "customer". */
  lemma RoleCodesLowerCase()
    ensures ToLower("ADMIN") == "admin"
    ensures ToLower("CUSTOMER") == "customer"
  {
    var a := ToLower("ADMIN");
    assert a[0] == 'a' && a[1] == 'd' && a[2] == 'm' && a[3] == 'i' && a[4] == 'n';
    var c := ToLower("CUSTOMER");
    assert c[0] == 'c' && c[1] == 'u' && c[2] == 's' && c[3] == 't';
    assert c[4] == 'o' && c[5] == 'm' && c[6] == 'e' && c[7] == 'r';
  }
}
